=== FILE: README.md ===
# PC-builder build store — a verified model

This project models the build ("cart") bookkeeping of the PCBuilder web application, taken from `Controllers/BuildController.cs`. A signed-in user owns builds. Each build is a named list of lines, and each line holds a product and a quantity. The user's session remembers an active build. The handlers do the following:

- **AddToBuild** resolves which build a product goes into, then merges the product into that build's lines.
- **UpdateQuantity** and **RemoveFromBuild** edit one line.
- **Delete** removes a whole build.
- **SetActiveBuild** moves the session pointer.
- **Create** makes a new empty build.
- **Index** and **Details** list or show the user's own builds.

The model is functional. `State` holds two things: a map from build id to `Build`, and the session's `active` pointer. `Build` holds owner, name, createdAt, optional updatedAt and a sequence of `Item` lines. Every handler is a pure function from a state to a new state, or to a `Reply` that carries a status (`Redirect` or `NotFound`) and the state. Some values come from outside the controller, and an `Env` record carries them into each request:

- the clock reading (`DateTime.Now`);
- the keys the database generates for a new build and a new line;
- the date-stamped default build name.

Modules:

- `Models` (models.dfy) holds the entities of `Models/Build.cs` and `Models/BuildItem.cs`. It also holds the store invariants: item ids are a key, and quantities are positive.
- `Lines` (lines.dfy) holds the lines of one build. This includes `FirstOrDefault` by product, the merge-or-append step, and the total quantity of a product.
- `Listing` (listing.dfy) holds the owner-filtered listing ordered by `UpdatedAt ?? CreatedAt`, descending. The query has no tie-break, so builds with equal keys may come in any order.
- `BuildController` (controller.dfy) holds the handlers.
- `BuildProperties` (properties.dfy) holds properties that span several calls.

Behaviour of the code that is easy to misread, which the model follows:

- **No tier check.** No tier-compatibility check exists anywhere in the code, so none is modelled.
- **No fallback between ids.** AddToBuild takes `buildId ?? session` (line 80). An explicit id that names no build of the user creates a new build. It does not fall back to the session pointer.
- **The session pointer is not always updated.** When the explicit id or the session id resolves, the session pointer is left unchanged.
- **No tie-break on recency.** The order has no secondary key, such as creation time.
- **Items are not always loaded.** The lookup of the most recent build does not load the build's items (lines 110-113). The merge therefore sees an empty list there (see Findings).

`AddToBuild` does not list the user's builds itself. It takes that listing as an input, `recent`, and requires it to be one of the orders the query may return (`Listing.RecencyOrder`). `Listing.Index` computes such an order.

## Model

| member | source | states |
|---|---|---|
| Lines.FindLine | Controllers/BuildController.cs:139-140 | finds the first line whose product is `p`; the result is absent exactly when no line holds `p` |
| Lines.Merge | Controllers/BuildController.cs:139-153 | if the loaded lines hold `p`, the first such line's quantity rises by exactly 1 and the number of lines is unchanged; otherwise exactly one line `(newId, p, 1)` is appended; the set of products becomes the old set plus `p`; one line per product and positive quantities are preserved |
| Lines.MergeQuantity | Controllers/BuildController.cs:139-153 | merging `p` raises the total quantity of `p` by exactly 1 and leaves every other product's total unchanged |
| Lines.MergeIds | Controllers/BuildController.cs:148-152 | after a merge, line ids stay distinct, every old id is still present, and the only id that may be added is the fresh id of the appended line |
| Lines.MergeTwiceNewProduct | Controllers/BuildController.cs:139-153 | merging a product the lines do not hold, twice, leaves the old lines followed by a single line for it with quantity 2 |
| Lines.QuantityPositiveIffLine | Controllers/BuildController.cs:139-140 | with every quantity at least 1, a product's total is positive exactly when the build has a line for it, so the lookup by product finds a line exactly when the product is already in the build |
| Lines.Wrap32 | Models/BuildItem.cs:17 | C#'s unchecked `int`: the result lies in [-2^31, 2^31 - 1], differs from the input by a multiple of 2^32, and is the input itself when the input is in range |
| Lines.MergeInt32 | Controllers/BuildController.cs:142-144 | as written, with `Quantity++` on a 32-bit `int`: the same lines, ids and products as `Merge`, and equal to `Merge` whenever no quantity sits at `int.MaxValue`; for 32-bit inputs every line is `Merge`'s line with its quantity wrapped, so the bumped line's quantity is `Wrap32(old + 1)` |
| Listing.RecencyHeadIsLatest | Controllers/BuildController.cs:110-118 | the first build of any valid listing (`existingBuilds.First()`) is owned by the user, and no other build of the user has a later `UpdatedAt ?? CreatedAt` |
| Listing.RecencyEmptyIffNoBuild | Controllers/BuildController.cs:110-115 | the listing is empty (`Any()` is false) exactly when the user owns no build |
| Listing.PickLatest | Controllers/BuildController.cs:30 | returns some member of the set that no other member exceeds in `UpdatedAt ?? CreatedAt` |
| Listing.Index | Controllers/BuildController.cs:21-31 | returns every build of the user and no other build, each once, in non-increasing `UpdatedAt ?? CreatedAt` order |
| BuildController.Details | Controllers/BuildController.cs:37-48 | returns a build exactly when it exists and is the user's; otherwise NotFound |
| BuildController.Create | Controllers/BuildController.cs:55-67 | adds exactly one new build, owned by the user, with no lines, no UpdatedAt and CreatedAt = now; it is named by the given name, or by the default name when the given name is null or empty; other builds and the session pointer are unchanged |
| BuildController.Resolve | Controllers/BuildController.cs:80-136 | resolution rules, listed below the table |
| BuildController.AddLine | Controllers/BuildController.cs:139-155 | with loaded items, the first line for `p` gains 1, or `(newId, p, 1)` is appended when there is none; without loaded items, `(newId, p, 1)` is always appended; the total of `p` rises by exactly 1 and other totals are unchanged; UpdatedAt = now; owner, name and creation time are kept |
| BuildController.AddToBuild | Controllers/BuildController.cs:75-156 | the target build and the session pointer are the ones Resolve chooses; the target is the user's, and if it existed before it was already the user's; at most one build is added, and only under the fresh id; no build other than the target changes; a new build is `(user, default name, CreatedAt = now, UpdatedAt = now)` holding exactly `(newItemId, p, 1)` (lines 94-99, 124-129); when the target existed and its items were loaded, its lines become the merge of its old lines (first line for `p` gains 1, or `(newItemId, p, 1)` is appended); when its items were not loaded, `(newItemId, p, 1)` is appended; an existing target keeps its name and CreatedAt; the target's UpdatedAt = now; its total of `p` rises by exactly 1 and other totals are unchanged |
| BuildController.AddToBuildEager | Controllers/BuildController.cs:87-156 | corrected AddToBuild: the same target, session pointer, ownership, quantity and "nothing else changes" facts as AddToBuild; an existing target keeps its name and CreatedAt and its lines always become the merge of its old lines; a new build is `(user, default name, CreatedAt = now, UpdatedAt = now)` holding exactly `(newItemId, p, 1)`; and a target with one line per product keeps one line per product |
| BuildController.LocateItem | Controllers/BuildController.cs:166-168 | finds the build and position of the item with the given id; the result is absent exactly when no build holds that id |
| BuildController.LocateOwnedItem | Controllers/BuildController.cs:166-171 | finds the item only when it exists and its build is the user's |
| BuildController.UpdateQuantity | Controllers/BuildController.cs:183-197 | NotFound, with the state unchanged, exactly when the item is missing or its build is not the user's; otherwise the stored quantity is `quantity` when it is at least 1 and 1 when it is below 1; only that line's quantity and its build's UpdatedAt (= now) change |
| BuildController.RemoveFromBuild | Controllers/BuildController.cs:164-176 | NotFound, with the state unchanged, exactly when the item is missing or its build is not the user's; otherwise exactly that line is removed (the others keep their order), the id is gone, and the build's UpdatedAt = now; no other build changes |
| BuildController.Delete | Controllers/BuildController.cs:204-213 | NotFound, with the state unchanged, exactly when the build is missing or not the user's; otherwise that build and its lines disappear and nothing else changes; the session pointer is left as it is |
| BuildController.SetActiveBuild | Controllers/BuildController.cs:223-232 | the session pointer becomes the id when the build is the user's; otherwise nothing changes; builds never change |
| BuildProperties.AddToBuildKeepsWellformed | Controllers/BuildController.cs:139-156 | with fresh keys, AddToBuild keeps item ids unique across the store and every quantity at least 1 |
| BuildProperties.UpdateQuantityKeepsWellformed | Controllers/BuildController.cs:185-197 | UpdateQuantity keeps item ids unique and every quantity at least 1 |
| BuildProperties.RemoveFromBuildKeepsWellformed | Controllers/BuildController.cs:170-176 | RemoveFromBuild keeps item ids unique and every quantity at least 1 |
| BuildProperties.CreateKeepsWellformed | Controllers/BuildController.cs:59-67 | Create keeps item ids unique and every quantity at least 1 |
| BuildProperties.DeleteKeepsWellformed | Controllers/BuildController.cs:206-212 | Delete keeps item ids unique and every quantity at least 1 |
| BuildProperties.SetActiveKeepsWellformed | Controllers/BuildController.cs:226-231 | SetActiveBuild keeps item ids unique and every quantity at least 1 |
| BuildProperties.UpdateQuantityKeepsOneLinePerProduct | Controllers/BuildController.cs:194 | changing a quantity never produces two lines for one product |
| BuildProperties.RemoveFromBuildKeepsOneLinePerProduct | Controllers/BuildController.cs:173 | removing a line never produces two lines for one product |
| BuildProperties.AddTwiceMerges | Controllers/BuildController.cs:84-153 | adding `p` twice through an owned explicit build id, to a build without a line for `p`, leaves exactly one line for `p`, with quantity 2 |
| BuildProperties.AddTwiceMergesViaSession | Controllers/BuildController.cs:80-153 | the same on the session path: with no explicit id and the session pointing at a build of the user's without a line for `p`, two adds go to that build, keep the pointer, add no build and leave exactly one line for `p`, with quantity 2 |
| BuildProperties.SessionKeepsTarget | Controllers/BuildController.cs:80-134 | after an AddToBuild without an explicit id, the session points at the build it used; the next such call goes to the same build, loads its items, adds no build and moves no pointer |
| BuildProperties.FirstAddCreatesBuild | Controllers/BuildController.cs:91-155 | a user with no build and no usable pointer gets a new build under the fresh id; it holds exactly the line `(newItemId, p, 1)`, has UpdatedAt = now, and becomes the active build |
| BuildProperties.MostRecentBuildWins | Controllers/BuildController.cs:110-119 | of two builds of the user, an implicit addition goes to the one touched more recently, which becomes the active build |
| BuildProperties.DuplicateLineWhenNotLoaded | Controllers/BuildController.cs:110-153 | as written: on a concrete store, re-adding a product through the most-recent-build lookup appends a second line for it |
| BuildProperties.QuantityWrapsAfterTwoRequests | Controllers/BuildController.cs:142-194 | as written: UpdateQuantity (line 185 clamps only from below) stores `int.MaxValue` in a well-formed store, and a following merge through the loaded lines wraps that line to `int.MinValue`, while the unbounded `Merge` keeps it positive |
| BuildProperties.EagerMergesOnExample | Controllers/BuildController.cs:139-145 | corrected: on the same input, the existing line rises to quantity 2 |
| BuildProperties.EagerKeepsOneLinePerProduct | Controllers/BuildController.cs:139-153 | corrected: if every build has one line per product, that still holds after AddToBuildEager |
| BuildProperties.ActiveBuildReceivesAdds | Controllers/BuildController.cs:80-89 | once SetActiveBuild (lines 226-230) has selected one of the user's builds, an implicit AddToBuild goes to that build with its items loaded and adds no build |
| BuildProperties.DeletedActiveBuildLeadsToNewBuild | Controllers/BuildController.cs:80-105 | after Delete (lines 206-212) removes the active build, Details no longer finds it; the session pointer still names it, so the next implicit AddToBuild creates a new build and selects it, even if the user owns other builds |

`BuildController.Resolve` guarantees:

- The chosen build is the user's.
- Existing builds are untouched, and the only possible new build is an empty one under the fresh id, which becomes active.
- An owned explicit id is used as is, with the state unchanged, and no new build is created.
- An explicit id that is not the user's gives a new build, even when the session pointer names one of the user's builds.
- Without an explicit id, the session id is treated the same way.
- Items go unloaded only on the most-recent-build path, and only for a build that already existed.
- With neither id, the result is the user's most recently touched build, loaded without its items, or a new build only when the user owns none. Either way the session pointer is set to it.

## Left out

- The tier-compatibility rule. `Product.Tier` carries only a range annotation, and no handler compares tiers.
- Sign-in, claims and password hashing (`Controllers/AccountController.cs`, `Services/UserService.cs`). The acting user's id is a parameter. Parsing the claim in `GetCurrentUserId`, which falls back to "0", is not modelled.
- `Program.cs`, `Data/AppDbContext.cs` and `Controllers/ProductsController.cs`: configuration and a pass-through catalogue query. `Data/AppDbContext.cs` declares only `Users`; the model assumes the `Builds` and `BuildItems` tables the controller queries.
- `Category`, `User`, `UserBuild`, the view models and the validation attributes: plain data with no behaviour.
- The loading of products and categories in `Index` and `Details`, the redirect targets, and the `TempData` messages.
- Clock readings. `DateTime.Now` is read several times in one request (`CreatedAt`, then `UpdatedAt`). The model uses one reading, `env.now`, per request.
- The date-stamped default name. It is the opaque `env.defaultName`.
- Database key generation. It is `env.newBuildId` / `env.newItemId`, required to be unused (`Fresh`).
- Persistence failures. One example is a `productId` that names no product, which the foreign key would reject on save.
- Concurrent requests, and session expiry. The model has one session.
- Lines.Merge: does not model the 32-bit wrap-around of `Quantity++` at `int.MaxValue`, because quantities are unbounded integers here. `Lines.MergeInt32` models the wrap (see Findings).
- BuildController.AddLine: does not model the 32-bit wrap-around of `Quantity++` at `int.MaxValue`, for the same reason.
- BuildProperties.AddToBuildKeepsWellformed: positive quantities are preserved only because quantities are unbounded here. In the program, UpdateQuantity can store `int.MaxValue`, and a following AddToBuild of the same product through that build's id wraps it to `int.MinValue` (`BuildProperties.QuantityWrapsAfterTwoRequests`).
- BuildController.UpdateQuantity and BuildController.RemoveFromBuild: both require item ids to be unique across the store (`UniqueItemIds`). This is the primary key of the items table, and every handler preserves it.

## Findings

| source | as written | input that shows it | evidently intended | confidence | as-written member | corrected member |
|---|---|---|---|---|---|---|
| Controllers/BuildController.cs:110-118 | the most-recent-build query has no `.Include(b => b.BuildItems)`, so the merge at lines 139-153 looks for the product in an empty item list and always appends | user 1 owns build 10, which holds line 100 for product 7 with quantity 1; the session has no pointer; AddToBuild(productId 7, no buildId) leaves build 10 with two lines for product 7 | the existing line's quantity rises to 2, keeping one line per product as the other lookups (lines 87-89) do | medium, not executed (depends on the ORM not fixing up untracked items within one request) | BuildProperties.DuplicateLineWhenNotLoaded | BuildController.AddToBuildEager |
| Controllers/BuildController.cs:144 | `existingItem.Quantity++` on a 32-bit `int` in an unchecked context, and UpdateQuantity (line 185) bounds the quantity only from below | user 1 owns build 10 with line 100 for product 7; UpdateQuantity(100, 2147483647), then AddToBuild(productId 7, buildId 10) stores quantity -2147483648 | every stored quantity is at least 1, as the default of 1 (Models/BuildItem.cs:17) and the clamp at line 185 intend | low, not executed (needs a client to post quantity 2147483647); the corrected member is the unbounded idealisation, not a fix the program could adopt as is (that would be an upper bound in UpdateQuantity or a checked increment) | BuildProperties.QuantityWrapsAfterTwoRequests | Lines.Merge |

All other properties in the table are stated for the as-written `AddToBuild`. The contract of `AddToBuildEager` carries the same target, session, ownership, name, CreatedAt and quantity facts, and adds one-line-per-product preservation (`BuildProperties.EagerKeepsOneLinePerProduct`).

=== FILE: controller.dfy ===
/**
  The request handlers of `Controllers/BuildController.cs` as pure transitions
  over `State`. The acting user's id is a parameter (the sign-in layer resolves
  it); clock readings, fresh keys and the default build name come in `Env`.
 */
module BuildController {
  import opened Models
  import opened Lines
  import opened Listing

  /** What a handler answers: a redirect (success) or NotFound. */
  datatype Status = Redirect | NotFound

  datatype Reply = Reply(status: Status, state: State)

  /** AddToBuild's outcome: the new state and the build the product went into. */
  datatype Added = Added(state: State, target: BuildId)

  /**
    The build AddToBuild settled on, the state after any build creation and
    session-pointer move, and whether the lookup that found the build also
    loaded its items.
   */
  datatype Resolution = Resolution(state: State, target: BuildId, itemsLoaded: bool)

  function NewBuild(user: UserId, name: string, now: Time): Build
  {
    Build(user, name, now, None, [])
  }

  /** `Details`: a build is visible only to its owner; anyone else gets NotFound. */
  function Details(s: State, user: UserId, id: BuildId): (r: Option<Build>)
    ensures r.Some? <==> OwnedBy(s, id, user)
    ensures r.Some? ==> r.value == s.builds[id]
  {
    if id in s.builds && s.builds[id].owner == user then Some(s.builds[id]) else None
  }

  /** `Create`: a new empty build for the user; a null or empty name falls back to the default name. */
  function Create(s: State, user: UserId, buildName: Option<string>, env: Env): (r: State)
    requires env.newBuildId !in s.builds
    ensures r.active == s.active
    ensures r.builds.Keys == s.builds.Keys + {env.newBuildId}
    ensures forall id :: id in s.builds ==> r.builds[id] == s.builds[id]
    ensures OwnedBy(r, env.newBuildId, user)
    ensures r.builds[env.newBuildId].items == []
    ensures r.builds[env.newBuildId].updatedAt == None
    ensures r.builds[env.newBuildId].createdAt == env.now
    ensures buildName.Some? && buildName.value != "" ==> r.builds[env.newBuildId].name == buildName.value
    ensures buildName.None? || buildName.value == "" ==> r.builds[env.newBuildId].name == env.defaultName
  {
    var name := match buildName
      case Some(n) => if n == "" then env.defaultName else n
      case None => env.defaultName;
    s.(builds := s.builds[env.newBuildId := NewBuild(user, name, env.now)])
  }

  /** A new build for the user under the default name, made the session's active build. */
  function CreateAndSelect(s: State, user: UserId, env: Env): Resolution
  {
    Resolution(
      State(s.builds[env.newBuildId := NewBuild(user, env.defaultName, env.now)], Some(env.newBuildId)),
      env.newBuildId,
      true)
  }

  /**
    AddToBuild's choice of build. The explicit id, or else the session pointer,
    is consulted first, and an id that does not name a build of the user leads
    to a new build without trying the other id. With neither id, the head of
    the user's recency listing is taken (its items are not loaded), or a new
    build when the user owns none.
   */
  function Resolve(s: State, user: UserId, buildId: Option<BuildId>, recent: seq<BuildId>, env: Env): (r: Resolution)
    requires RecencyOrder(s, user, recent)
    requires env.newBuildId !in s.builds
    ensures OwnedBy(r.state, r.target, user)
    ensures r.state.builds.Keys == s.builds.Keys + {r.target}
    ensures forall id :: id in s.builds ==> r.state.builds[id] == s.builds[id]
    ensures r.target !in s.builds ==>
              && r.target == env.newBuildId
              && r.state.builds[r.target] == NewBuild(user, env.defaultName, env.now)
              && r.state.active == Some(r.target)
    ensures !r.itemsLoaded ==> buildId.None? && s.active.None? && r.target in s.builds
    ensures buildId.Some? && OwnedBy(s, buildId.value, user) ==>
              r.target == buildId.value && r.state == s && r.itemsLoaded
    ensures buildId.Some? && !OwnedBy(s, buildId.value, user) ==>
              r.target == env.newBuildId
    ensures buildId.None? && s.active.Some? && OwnedBy(s, s.active.value, user) ==>
              r.target == s.active.value && r.state == s && r.itemsLoaded
    ensures buildId.None? && s.active.Some? && !OwnedBy(s, s.active.value, user) ==>
              r.target == env.newBuildId
    ensures buildId.None? && s.active.None? ==>
              && r.state.active == Some(r.target)
              && (r.target in s.builds <==> OwnedIds(s, user) != {})
              && (r.target in s.builds ==> !r.itemsLoaded)
              && forall id :: OwnedBy(s, id, user) ==>
                   LastTouched(s.builds[id]) <= LastTouched(s.builds[r.target])
  {
    RecencyEmptyIffNoBuild(s, user, recent);
    var chosen := if buildId.Some? then buildId else s.active;
    match chosen
    case Some(id) =>
      if id in s.builds && s.builds[id].owner == user then Resolution(s, id, true)
      else CreateAndSelect(s, user, env)
    case None =>
      if |recent| > 0 then
        RecencyHeadIsLatest(s, user, recent);
        Resolution(s.(active := Some(recent[0])), recent[0], false)
      else
        CreateAndSelect(s, user, env)
  }

  /**
    The merge step of AddToBuild: the product is merged into the lines the
    lookup loaded, and the build's UpdatedAt is stamped. When the items were not
    loaded, the merge sees no line at all and a new line is appended.
   */
  function AddLine(b: Build, itemsLoaded: bool, p: ProductId, newId: ItemId, now: Time): (r: Build)
    ensures r.owner == b.owner && r.name == b.name && r.createdAt == b.createdAt
    ensures r.updatedAt == Some(now)
    ensures itemsLoaded && HasLine(b.items, p) ==>
              exists k :: 0 <= k < |b.items| && b.items[k].productId == p
                && (forall j :: 0 <= j < k ==> b.items[j].productId != p)
                && r.items == b.items[k := b.items[k].(quantity := b.items[k].quantity + 1)]
    ensures !itemsLoaded || !HasLine(b.items, p) ==>
              r.items == b.items + [Item(newId, p, 1)]
    ensures forall q :: QuantityOf(r.items, q) == QuantityOf(b.items, q) + (if q == p then 1 else 0)
  {
    if itemsLoaded then
      MergeQuantity(b.items, p, newId);
      var merged := Merge(b.items, p, newId);
      assert !HasLine(b.items, p) ==> merged == b.items + [Item(newId, p, 1)] by {
        if !HasLine(b.items, p) {
          assert merged == merged[..|b.items|] + [merged[|b.items|]];
        }
      }
      b.(items := merged, updatedAt := Some(now))
    else
      var line := Merge([], p, newId);
      MergeQuantity([], p, newId);
      assert line == [Item(newId, p, 1)];
      QuantityOfAppendAll(b.items, line);
      b.(items := b.items + line, updatedAt := Some(now))
  }

  /**
    `AddToBuild`, as written: resolve the target build, then merge the product
    into its loaded lines. Only the target build changes, and it is the user's.
   */
  function AddToBuild(s: State, user: UserId, p: ProductId, buildId: Option<BuildId>, recent: seq<BuildId>, env: Env): (r: Added)
    requires RecencyOrder(s, user, recent)
    requires env.newBuildId !in s.builds
    ensures OwnedBy(r.state, r.target, user)
    ensures r.target in s.builds ==> OwnedBy(s, r.target, user)
    ensures r.state.builds.Keys == s.builds.Keys + {r.target}
    ensures r.target !in s.builds ==> r.target == env.newBuildId && r.state.active == Some(r.target)
    ensures forall id :: id in s.builds && id != r.target ==> r.state.builds[id] == s.builds[id]
    ensures r.target == Resolve(s, user, buildId, recent, env).target
    ensures r.state.active == Resolve(s, user, buildId, recent, env).state.active
    ensures Resolve(s, user, buildId, recent, env).itemsLoaded && r.target in s.builds ==>
              r.state.builds[r.target].items == Merge(s.builds[r.target].items, p, env.newItemId)
    ensures !Resolve(s, user, buildId, recent, env).itemsLoaded ==>
              r.state.builds[r.target].items == s.builds[r.target].items + [Item(env.newItemId, p, 1)]
    ensures r.target !in s.builds ==>
              r.state.builds[r.target] == Build(user, env.defaultName, env.now, Some(env.now), [Item(env.newItemId, p, 1)])
    ensures r.target in s.builds ==>
              && r.state.builds[r.target].name == s.builds[r.target].name
              && r.state.builds[r.target].createdAt == s.builds[r.target].createdAt
    ensures r.state.builds[r.target].updatedAt == Some(env.now)
    ensures forall q :: QuantityOf(r.state.builds[r.target].items, q)
                     == (if r.target in s.builds then QuantityOf(s.builds[r.target].items, q) else 0)
                        + (if q == p then 1 else 0)
  {
    var res := Resolve(s, user, buildId, recent, env);
    var b := res.state.builds[res.target];
    assert b.items == (if res.target in s.builds then s.builds[res.target].items else []);
    assert forall q :: QuantityOf(b.items, q) == (if res.target in s.builds then QuantityOf(s.builds[res.target].items, q) else 0);
    var nb := AddLine(b, res.itemsLoaded, p, env.newItemId, env.now);
    Added(res.state.(builds := res.state.builds[res.target := nb]), res.target)
  }

  /**
    AddToBuild with the most-recent-build lookup loading the build's items like
    the other lookups do: the product is always merged against every line of
    the target, so a build with one line per product keeps one line per product.
   */
  function AddToBuildEager(s: State, user: UserId, p: ProductId, buildId: Option<BuildId>, recent: seq<BuildId>, env: Env): (r: Added)
    requires RecencyOrder(s, user, recent)
    requires env.newBuildId !in s.builds
    ensures r.target == AddToBuild(s, user, p, buildId, recent, env).target
    ensures r.state.active == AddToBuild(s, user, p, buildId, recent, env).state.active
    ensures OwnedBy(r.state, r.target, user)
    ensures r.state.builds.Keys == s.builds.Keys + {r.target}
    ensures forall id :: id in s.builds && id != r.target ==> r.state.builds[id] == s.builds[id]
    ensures r.state.builds[r.target].updatedAt == Some(env.now)
    ensures r.target in s.builds ==>
              r.state.builds[r.target].items == Merge(s.builds[r.target].items, p, env.newItemId)
    ensures r.target !in s.builds ==>
              r.state.builds[r.target] == Build(user, env.defaultName, env.now, Some(env.now), [Item(env.newItemId, p, 1)])
    ensures r.target in s.builds ==>
              && r.state.builds[r.target].name == s.builds[r.target].name
              && r.state.builds[r.target].createdAt == s.builds[r.target].createdAt
    ensures r.target in s.builds && OneLinePerProduct(s.builds[r.target].items) ==>
              OneLinePerProduct(r.state.builds[r.target].items)
    ensures r.target !in s.builds ==> OneLinePerProduct(r.state.builds[r.target].items)
    ensures forall q :: QuantityOf(r.state.builds[r.target].items, q)
                     == (if r.target in s.builds then QuantityOf(s.builds[r.target].items, q) else 0)
                        + (if q == p then 1 else 0)
  {
    var res := Resolve(s, user, buildId, recent, env);
    var b := res.state.builds[res.target];
    var b' := AddLine(b, true, p, env.newItemId, env.now);
    assert b'.items == Merge(b.items, p, env.newItemId);
    Added(res.state.(builds := res.state.builds[res.target := b']), res.target)
  }

  /** Index of the item with id `itemId` in `items`. */
  function IndexOfId(items: seq<Item>, itemId: ItemId): (r: nat)
    requires itemId in IdsOf(items)
    ensures r < |items| && items[r].id == itemId
  {
    if items[0].id == itemId then 0
    else
      assert itemId in IdsOf(items[1..]) by {
        var it :| it in items && it.id == itemId;
        assert it in items[1..] by {
          assert items == [items[0]] + items[1..];
        }
      }
      IndexOfId(items[1..], itemId) + 1
  }

  /** `BuildItems.FirstOrDefault(bi => bi.Id == itemId)`: the build and position of the item, if any. */
  function LocateItem(s: State, itemId: ItemId): (r: Option<(BuildId, nat)>)
    requires UniqueItemIds(s)
    ensures r.Some? ==>
              && r.value.0 in s.builds
              && r.value.1 < |s.builds[r.value.0].items|
              && s.builds[r.value.0].items[r.value.1].id == itemId
    ensures r.None? <==> forall b :: b in s.builds ==> itemId !in IdsOf(s.builds[b].items)
  {
    if exists b :: b in s.builds && itemId in IdsOf(s.builds[b].items) then
      var b :| b in s.builds && itemId in IdsOf(s.builds[b].items);
      Some((b, IndexOfId(s.builds[b].items, itemId)))
    else
      None
  }

  /** The item's build and position, when the item exists and its build is the user's. */
  function LocateOwnedItem(s: State, user: UserId, itemId: ItemId): (r: Option<(BuildId, nat)>)
    requires UniqueItemIds(s)
    ensures r.Some? <==> ItemOwnedBy(s, itemId, user)
    ensures r.Some? ==> r == LocateItem(s, itemId) && OwnedBy(s, r.value.0, user)
  {
    match LocateItem(s, itemId)
    case None => None
    case Some(loc) =>
      if s.builds[loc.0].owner == user then Some(loc)
      else
        assert !ItemOwnedBy(s, itemId, user) by {
          assert s.builds[loc.0].items[loc.1] in s.builds[loc.0].items;
        }
        None
  }

  /** `after` is `before` with its UpdatedAt stamped `now`; owner, name and creation time are kept. */
  predicate Touched(before: Build, after: Build, now: Time)
  {
    && after.owner == before.owner
    && after.name == before.name
    && after.createdAt == before.createdAt
    && after.updatedAt == Some(now)
  }

  /**
    `UpdateQuantity`: the quantity is raised to at least 1, then stored on the
    item if it exists and its build is the user's (stamping the build's
    UpdatedAt); otherwise NotFound and nothing changes.
   */
  function UpdateQuantity(s: State, user: UserId, itemId: ItemId, quantity: int, now: Time): (r: Reply)
    requires UniqueItemIds(s)
    ensures r.status == NotFound <==> !ItemOwnedBy(s, itemId, user)
    ensures r.status == NotFound ==> r.state == s
    ensures r.state.active == s.active
    ensures r.state.builds.Keys == s.builds.Keys
    ensures r.status == Redirect ==>
              && LocateItem(s, itemId).Some?
              && var b := LocateItem(s, itemId).value.0;
                 var i := LocateItem(s, itemId).value.1;
                 && r.state.builds == s.builds[b := r.state.builds[b]]
                 && Touched(s.builds[b], r.state.builds[b], now)
                 && |r.state.builds[b].items| == |s.builds[b].items|
                 && var stored := r.state.builds[b].items[i].quantity;
                    && r.state.builds[b].items == s.builds[b].items[i := s.builds[b].items[i].(quantity := stored)]
                    && (quantity < 1 ==> stored == 1)
                    && (quantity >= 1 ==> stored == quantity)
  {
    var q := if quantity < 1 then 1 else quantity;
    match LocateOwnedItem(s, user, itemId)
    case None => Reply(NotFound, s)
    case Some(loc) =>
      var (b, i) := loc;
      var prior := s.builds[b];
      var updated := prior.(items := prior.items[i := prior.items[i].(quantity := q)], updatedAt := Some(now));
      Reply(Redirect, s.(builds := s.builds[b := updated]))
  }

  /**
    `RemoveFromBuild`: the item is deleted from its build (stamping the build's
    UpdatedAt) if it exists and its build is the user's; otherwise NotFound and
    nothing changes.
   */
  function RemoveFromBuild(s: State, user: UserId, itemId: ItemId, now: Time): (r: Reply)
    requires UniqueItemIds(s)
    ensures r.status == NotFound <==> !ItemOwnedBy(s, itemId, user)
    ensures r.status == NotFound ==> r.state == s
    ensures r.state.active == s.active
    ensures r.state.builds.Keys == s.builds.Keys
    ensures r.status == Redirect ==>
              && LocateItem(s, itemId).Some?
              && var b := LocateItem(s, itemId).value.0;
                 var i := LocateItem(s, itemId).value.1;
                 && r.state.builds == s.builds[b := r.state.builds[b]]
                 && Touched(s.builds[b], r.state.builds[b], now)
                 && r.state.builds[b].items == s.builds[b].items[..i] + s.builds[b].items[i + 1..]
                 && itemId !in IdsOf(r.state.builds[b].items)
  {
    match LocateOwnedItem(s, user, itemId)
    case None => Reply(NotFound, s)
    case Some(loc) =>
      var (b, i) := loc;
      var prior := s.builds[b];
      var rest := prior.items[..i] + prior.items[i + 1..];
      IdsOfRemove(prior.items, i);
      Reply(Redirect, s.(builds := s.builds[b := prior.(items := rest, updatedAt := Some(now))]))
  }

  /**
    `Delete`: the build, with all its lines, is removed if it is the user's;
    otherwise NotFound and nothing changes. The session pointer is left as it
    is, even when it named the deleted build.
   */
  function Delete(s: State, user: UserId, id: BuildId): (r: Reply)
    ensures r.status == NotFound <==> !OwnedBy(s, id, user)
    ensures r.status == NotFound ==> r.state == s
    ensures r.state.active == s.active
    ensures r.status == Redirect ==> r.state.builds.Keys == s.builds.Keys - {id}
    ensures forall b :: b in r.state.builds ==> b in s.builds && r.state.builds[b] == s.builds[b]
  {
    if id in s.builds && s.builds[id].owner == user then
      Reply(Redirect, s.(builds := s.builds - {id}))
    else
      Reply(NotFound, s)
  }

  /**
    `SetActiveBuild`: the session pointer moves to the build only when it is
    the user's; the builds themselves never change.
   */
  function SetActiveBuild(s: State, user: UserId, id: BuildId): (r: State)
    ensures r.builds == s.builds
    ensures OwnedBy(s, id, user) ==> r.active == Some(id)
    ensures !OwnedBy(s, id, user) ==> r == s
  {
    if id in s.builds && s.builds[id].owner == user then s.(active := Some(id)) else s
  }
}

=== FILE: lines.dfy ===
/**
  The lines of one build and the merge-or-append step of adding a product
  (`Controllers/BuildController.cs`, AddToBuild): the first line for the
  product gets one more unit, or a new line with quantity 1 is appended.
 */
module Lines {
  import opened Models

  predicate HasLine(items: seq<Item>, p: ProductId)
  {
    exists k :: 0 <= k < |items| && items[k].productId == p
  }

  /** At most one line per product. */
  predicate OneLinePerProduct(items: seq<Item>)
  {
    forall i, j :: 0 <= i < j < |items| ==> items[i].productId != items[j].productId
  }

  /** `FirstOrDefault(bi => bi.ProductId == p)`: the index of the first line for `p`. */
  function FindLine(items: seq<Item>, p: ProductId): (r: Option<nat>)
    ensures r.Some? ==> r.value < |items| && items[r.value].productId == p
    ensures r.Some? ==> forall k :: 0 <= k < r.value ==> items[k].productId != p
    ensures r.None? <==> !HasLine(items, p)
  {
    if |items| == 0 then None
    else if items[0].productId == p then Some(0)
    else
      match FindLine(items[1..], p)
      case None =>
        assert forall k :: 1 <= k < |items| ==> items[k] == items[1..][k - 1];
        None
      case Some(k) => Some(k + 1)
  }

  /** Total number of units of product `p` over all lines. */
  function QuantityOf(items: seq<Item>, p: ProductId): int
  {
    if |items| == 0 then 0
    else (if items[0].productId == p then items[0].quantity else 0) + QuantityOf(items[1..], p)
  }

  /**
    Merge product `p` into the loaded lines: if a line for `p` exists, the first
    one gains exactly one unit and nothing else changes; otherwise exactly one
    line `(newId, p, 1)` is appended.
   */
  function Merge(items: seq<Item>, p: ProductId, newId: ItemId): (r: seq<Item>)
    ensures |r| == if HasLine(items, p) then |items| else |items| + 1
    ensures HasLine(items, p) ==>
              exists k :: 0 <= k < |items| && items[k].productId == p
                && (forall j :: 0 <= j < k ==> items[j].productId != p)
                && r[k] == items[k].(quantity := items[k].quantity + 1)
                && forall j :: 0 <= j < |items| && j != k ==> r[j] == items[j]
    ensures !HasLine(items, p) ==> r[..|items|] == items && r[|items|] == Item(newId, p, 1)
    ensures forall q :: HasLine(r, q) <==> HasLine(items, q) || q == p
    ensures OneLinePerProduct(items) ==> OneLinePerProduct(r)
    ensures AllPositive(items) ==> AllPositive(r)
  {
    match FindLine(items, p)
    case Some(k) =>
      var r := items[k := items[k].(quantity := items[k].quantity + 1)];
      assert forall q :: HasLine(r, q) ==> HasLine(items, q) by {
        forall q | HasLine(r, q) ensures HasLine(items, q) {
          var j :| 0 <= j < |r| && r[j].productId == q;
          assert items[j].productId == q;
        }
      }
      r
    case None =>
      var r := items + [Item(newId, p, 1)];
      assert r[|items|].productId == p;
      r
  }

  lemma {:induction false} QuantityOfAppend(a: seq<Item>, b: seq<Item>, q: ProductId)
    ensures QuantityOf(a + b, q) == QuantityOf(a, q) + QuantityOf(b, q)
  {
    if |a| == 0 {
      assert a + b == b;
    } else {
      assert (a + b)[1..] == a[1..] + b;
      QuantityOfAppend(a[1..], b, q);
    }
  }

  lemma QuantityOfAppendAll(a: seq<Item>, b: seq<Item>)
    ensures forall q :: QuantityOf(a + b, q) == QuantityOf(a, q) + QuantityOf(b, q)
  {
    forall q ensures QuantityOf(a + b, q) == QuantityOf(a, q) + QuantityOf(b, q) {
      QuantityOfAppend(a, b, q);
    }
  }

  /** Raising one line by one unit raises the total of that line's product by exactly one. */
  lemma {:induction false} QuantityOfBump(items: seq<Item>, k: nat, q: ProductId)
    requires k < |items|
    ensures QuantityOf(items[k := items[k].(quantity := items[k].quantity + 1)], q)
         == QuantityOf(items, q) + (if items[k].productId == q then 1 else 0)
  {
    var r := items[k := items[k].(quantity := items[k].quantity + 1)];
    if k == 0 {
      assert r[1..] == items[1..];
    } else {
      assert r[1..] == items[1..][k - 1 := items[k].(quantity := items[k].quantity + 1)];
      QuantityOfBump(items[1..], k - 1, q);
    }
  }

  /** Whatever the loaded lines were, merging `p` adds exactly one unit of `p` and no unit of anything else. */
  lemma MergeQuantity(items: seq<Item>, p: ProductId, newId: ItemId)
    ensures forall q :: QuantityOf(Merge(items, p, newId), q)
                     == QuantityOf(items, q) + (if q == p then 1 else 0)
  {
    forall q
      ensures QuantityOf(Merge(items, p, newId), q) == QuantityOf(items, q) + (if q == p then 1 else 0)
    {
      match FindLine(items, p)
      case Some(k) =>
        QuantityOfBump(items, k, q);
      case None =>
        var line := [Item(newId, p, 1)];
        QuantityOfAppend(items, line, q);
        assert QuantityOf(line, q) == (if q == p then 1 else 0) by {
          assert line[1..] == [];
        }
    }
  }

  /** Merging a product the lines do not hold, twice, leaves the old lines followed by one line for it with quantity 2. */
  lemma MergeTwiceNewProduct(items: seq<Item>, p: ProductId, id1: ItemId, id2: ItemId)
    requires !HasLine(items, p)
    ensures Merge(Merge(items, p, id1), p, id2) == items + [Item(id1, p, 2)]
  {
    var items1 := Merge(items, p, id1);
    assert items1 == items + [Item(id1, p, 1)] by {
      assert items1 == items1[..|items|] + [items1[|items|]];
    }
    var k := |items|;
    assert FindLine(items1, p) == Some(k) by {
      assert forall j :: 0 <= j < k ==> items1[j] == items[j];
    }
  }

  /** With no line for `p`, the total of `p` is zero. */
  lemma {:induction false} NoLineNoQuantity(items: seq<Item>, p: ProductId)
    requires !HasLine(items, p)
    ensures QuantityOf(items, p) == 0
  {
    if |items| > 0 {
      assert !HasLine(items[1..], p) by {
        forall k | 0 <= k < |items[1..]| ensures items[1..][k].productId != p {
          assert items[1..][k] == items[k + 1];
        }
      }
      NoLineNoQuantity(items[1..], p);
    }
  }

  lemma IdsOfAppend(a: seq<Item>, b: seq<Item>)
    ensures IdsOf(a + b) == IdsOf(a) + IdsOf(b)
  {
    forall x | x in IdsOf(a + b) ensures x in IdsOf(a) + IdsOf(b) {
      var it :| it in a + b && it.id == x;
    }
  }

  /** Replacing a line by one with the same id keeps the set of ids. */
  lemma IdsOfUpdate(items: seq<Item>, k: nat, it: Item)
    requires k < |items|
    requires it.id == items[k].id
    ensures IdsOf(items[k := it]) == IdsOf(items)
    ensures DistinctIds(items) ==> DistinctIds(items[k := it])
  {
    var r := items[k := it];
    forall x | x in IdsOf(r) ensures x in IdsOf(items) {
      var e :| e in r && e.id == x;
      var j :| 0 <= j < |r| && r[j] == e;
      assert items[j] in items;
    }
    forall x | x in IdsOf(items) ensures x in IdsOf(r) {
      var e :| e in items && e.id == x;
      var j :| 0 <= j < |items| && items[j] == e;
      assert r[j] in r;
    }
  }

  /** Dropping line `i` drops its id and keeps the others distinct. */
  lemma IdsOfRemove(items: seq<Item>, i: nat)
    requires i < |items|
    requires DistinctIds(items)
    ensures IdsOf(items[..i] + items[i + 1..]) <= IdsOf(items)
    ensures items[i].id !in IdsOf(items[..i] + items[i + 1..])
    ensures DistinctIds(items[..i] + items[i + 1..])
  {
    var rest := items[..i] + items[i + 1..];
    assert forall k :: 0 <= k < |rest| ==> rest[k] == items[if k < i then k else k + 1];
    forall x | x in IdsOf(rest) ensures x in IdsOf(items) && x != items[i].id {
      var e :| e in rest && e.id == x;
      var k :| 0 <= k < |rest| && rest[k] == e;
      assert items[if k < i then k else k + 1] in items;
    }
  }

  /** Appending a line with an unused id keeps ids distinct. */
  lemma DistinctIdsAppend(items: seq<Item>, it: Item)
    requires DistinctIds(items)
    requires it.id !in IdsOf(items)
    ensures DistinctIds(items + [it])
  {
    forall i | 0 <= i < |items| ensures items[i].id != it.id {
      assert items[i] in items;
    }
  }

  /** Merging keeps ids distinct and uses no id but the old ones and `newId`. */
  lemma MergeIds(items: seq<Item>, p: ProductId, newId: ItemId)
    requires DistinctIds(items)
    requires newId !in IdsOf(items)
    ensures DistinctIds(Merge(items, p, newId))
    ensures IdsOf(Merge(items, p, newId)) <= IdsOf(items) + {newId}
    ensures IdsOf(items) <= IdsOf(Merge(items, p, newId))
  {
    var r := Merge(items, p, newId);
    forall x | x in IdsOf(items) ensures x in IdsOf(r) {
      var e :| e in items && e.id == x;
      var j :| 0 <= j < |items| && items[j] == e;
      assert r[j] in r;
    }
    match FindLine(items, p)
    case Some(k) =>
      IdsOfUpdate(items, k, items[k].(quantity := items[k].quantity + 1));
    case None =>
      var line := Item(newId, p, 1);
      IdsOfAppend(items, [line]);
      assert IdsOf([line]) == {newId} by {
        assert line in [line];
      }
      DistinctIdsAppend(items, line);
  }

  /**
    With every quantity at least 1, a product's total is positive exactly when
    the lines hold it, so the lookup by product finds a line exactly when the
    product is already in the build.
   */
  lemma {:induction false} QuantityPositiveIffLine(items: seq<Item>, p: ProductId)
    requires AllPositive(items)
    ensures QuantityOf(items, p) > 0 <==> HasLine(items, p)
  {
    if !HasLine(items, p) {
      NoLineNoQuantity(items, p);
    } else {
      LineGivesQuantity(items, p);
    }
  }

  lemma {:induction false} LineGivesQuantity(items: seq<Item>, p: ProductId)
    requires AllPositive(items)
    requires HasLine(items, p)
    ensures QuantityOf(items, p) >= 1
  {
    if items[0].productId == p {
      TotalNonNegative(items[1..], p);
    } else {
      var k :| 0 <= k < |items| && items[k].productId == p;
      assert items[1..][k - 1] == items[k];
      LineGivesQuantity(items[1..], p);
    }
  }

  lemma {:induction false} TotalNonNegative(items: seq<Item>, p: ProductId)
    requires AllPositive(items)
    ensures QuantityOf(items, p) >= 0
  {
    if |items| > 0 {
      TotalNonNegative(items[1..], p);
    }
  }

  const Int32Min: int := -0x8000_0000
  const Int32Max: int := 0x7FFF_FFFF

  /** C#'s unchecked 32-bit `int` arithmetic: `x` reduced into [Int32Min, Int32Max] modulo 2^32. */
  function Wrap32(x: int): (r: int)
    ensures Int32Min <= r <= Int32Max
    ensures (x - r) % 0x1_0000_0000 == 0
    ensures Int32Min <= x <= Int32Max ==> r == x
  {
    (x - Int32Min) % 0x1_0000_0000 + Int32Min
  }

  /**
    `Merge` as the handler compiles it: `Quantity++` on a 32-bit `int` in an
    unchecked context, so a line at Int32Max wraps to Int32Min. It agrees with
    the unbounded `Merge` whenever no quantity sits at Int32Max.
   */
  function MergeInt32(items: seq<Item>, p: ProductId, newId: ItemId): (r: seq<Item>)
    ensures |r| == |Merge(items, p, newId)|
    ensures forall k :: 0 <= k < |r| ==>
              && r[k].id == Merge(items, p, newId)[k].id
              && r[k].productId == Merge(items, p, newId)[k].productId
    ensures (forall k :: 0 <= k < |items| ==> Int32Min <= items[k].quantity < Int32Max) ==>
              r == Merge(items, p, newId)
    ensures (forall k :: 0 <= k < |items| ==> Int32Min <= items[k].quantity <= Int32Max) ==>
              forall k :: 0 <= k < |r| ==>
                r[k] == Merge(items, p, newId)[k].(quantity := Wrap32(Merge(items, p, newId)[k].quantity))
  {
    assert forall x :: Int32Min <= x <= Int32Max ==> Wrap32(x) == x;
    match FindLine(items, p)
    case Some(k) =>
      var bumped := items[k := items[k].(quantity := items[k].quantity + 1)];
      assert Merge(items, p, newId) == bumped;
      var q := Wrap32(items[k].quantity + 1);
      var r := items[k := items[k].(quantity := q)];
      assert forall j :: 0 <= j < |r| ==> r[j].id == bumped[j].id && r[j].productId == bumped[j].productId;
      assert Int32Min <= items[k].quantity < Int32Max ==> q == items[k].quantity + 1;
      r
    case None =>
      assert Merge(items, p, newId) == items + [Item(newId, p, 1)];
      items + [Item(newId, p, 1)]
  }
}

=== FILE: listing.dfy ===
/**
  Listing a user's builds (`Index` in `Controllers/BuildController.cs`, and the
  same query inside AddToBuild): only the user's own builds, most recently
  touched first. The query has no tie-break, so builds with equal keys may come
  in any order.
 */
module Listing {
  import opened Models

  /** `ids` is a possible result of the owner-filtered, `UpdatedAt ?? CreatedAt`-descending query. */
  predicate RecencyOrder(s: State, user: UserId, ids: seq<BuildId>)
  {
    && (forall i :: 0 <= i < |ids| ==> OwnedBy(s, ids[i], user))
    && (forall id :: id in s.builds && s.builds[id].owner == user ==> id in ids)
    && (forall i, j :: 0 <= i < j < |ids| ==> ids[i] != ids[j])
    && (forall i, j :: 0 <= i < j < |ids| ==>
          LastTouched(s.builds[ids[j]]) <= LastTouched(s.builds[ids[i]]))
  }

  /** The head of any such listing is a build of `user` that no other build of `user` is more recent than. */
  lemma RecencyHeadIsLatest(s: State, user: UserId, ids: seq<BuildId>)
    requires RecencyOrder(s, user, ids)
    requires |ids| > 0
    ensures OwnedBy(s, ids[0], user)
    ensures forall id :: OwnedBy(s, id, user) ==>
              LastTouched(s.builds[id]) <= LastTouched(s.builds[ids[0]])
  {
    forall id | OwnedBy(s, id, user)
      ensures LastTouched(s.builds[id]) <= LastTouched(s.builds[ids[0]])
    {
      var k :| 0 <= k < |ids| && ids[k] == id;
      if k > 0 {
        assert LastTouched(s.builds[ids[k]]) <= LastTouched(s.builds[ids[0]]);
      }
    }
  }

  /** The listing is empty exactly when the user owns no build. */
  lemma RecencyEmptyIffNoBuild(s: State, user: UserId, ids: seq<BuildId>)
    requires RecencyOrder(s, user, ids)
    ensures |ids| == 0 <==> OwnedIds(s, user) == {}
  {
    if |ids| > 0 {
      assert ids[0] in OwnedIds(s, user);
    }
    if OwnedIds(s, user) != {} {
      NonEmptyHasMember(OwnedIds(s, user));
      var id :| id in OwnedIds(s, user);
      assert id in ids;
    }
  }

  /** Some most recently touched build among `ids`. */
  method PickLatest(s: State, ids: set<BuildId>) returns (m: BuildId)
    requires ids != {}
    requires ids <= s.builds.Keys
    ensures m in ids
    ensures forall id :: id in ids ==> LastTouched(s.builds[id]) <= LastTouched(s.builds[m])
  {
    NonEmptyHasMember(ids);
    m :| m in ids;
    var todo := ids - {m};
    while todo != {}
      invariant todo <= ids
      invariant m in ids
      invariant forall id :: id in ids && id !in todo ==>
                  LastTouched(s.builds[id]) <= LastTouched(s.builds[m])
      decreases todo
    {
      NonEmptyHasMember(todo);
      var c :| c in todo;
      if LastTouched(s.builds[m]) < LastTouched(s.builds[c]) {
        m := c;
      }
      todo := todo - {c};
    }
  }

  /** `Index`: the user's builds, most recently touched first. */
  method Index(s: State, user: UserId) returns (ids: seq<BuildId>)
    ensures RecencyOrder(s, user, ids)
  {
    var rest := OwnedIds(s, user);
    ids := [];
    while rest != {}
      invariant rest <= OwnedIds(s, user)
      invariant forall i :: 0 <= i < |ids| ==> OwnedBy(s, ids[i], user) && ids[i] !in rest
      invariant forall id :: OwnedBy(s, id, user) ==> id in ids || id in rest
      invariant forall i, j :: 0 <= i < j < |ids| ==> ids[i] != ids[j]
      invariant forall i, j :: 0 <= i < j < |ids| ==>
                  LastTouched(s.builds[ids[j]]) <= LastTouched(s.builds[ids[i]])
      invariant forall i, id :: 0 <= i < |ids| && id in rest ==>
                  LastTouched(s.builds[id]) <= LastTouched(s.builds[ids[i]])
      decreases rest
    {
      var m := PickLatest(s, rest);
      ids := ids + [m];
      rest := rest - {m};
    }
  }
}

=== FILE: models.dfy ===
/**
  Entities of the PC-builder "build" store: builds (carts) owned by users, the
  lines (build items) inside them, and the per-session pointer to the build
  that implicit additions target.

  Clock readings, database-generated keys and the date-stamped default build
  name are not computed here: a request receives them as an `Env` value.
 */
module Models {

  datatype Option<+T> = None | Some(value: T)

  type UserId = int
  type BuildId = int
  type ItemId = int
  type ProductId = int

  /** A clock reading; only the order of readings matters to the model. */
  type Time = int

  /** One line of a build: a product and how many of it (`Models/BuildItem.cs`). */
  datatype Item = Item(id: ItemId, productId: ProductId, quantity: int)

  /** A named build owned by one user (`Models/Build.cs`); `updatedAt` is absent until the first change. */
  datatype Build = Build(
    owner: UserId,
    name: string,
    createdAt: Time,
    updatedAt: Option<Time>,
    items: seq<Item>)

  /** The persisted builds together with the acting client's session pointer ("ActiveBuildId"). */
  datatype State = State(builds: map<BuildId, Build>, active: Option<BuildId>)

  /** What the surroundings supply to one request: the clock, fresh keys and the default build name. */
  datatype Env = Env(now: Time, newBuildId: BuildId, newItemId: ItemId, defaultName: string)

  /** The recency key builds are listed by: `UpdatedAt ?? CreatedAt`. */
  function LastTouched(b: Build): Time
  {
    match b.updatedAt
    case Some(t) => t
    case None => b.createdAt
  }

  predicate OwnedBy(s: State, id: BuildId, user: UserId)
  {
    id in s.builds && s.builds[id].owner == user
  }

  function OwnedIds(s: State, user: UserId): set<BuildId>
  {
    set id | id in s.builds && s.builds[id].owner == user
  }

  function IdsOf(items: seq<Item>): set<ItemId>
  {
    set it | it in items :: it.id
  }

  predicate DistinctIds(items: seq<Item>)
  {
    forall i, j :: 0 <= i < j < |items| ==> items[i].id != items[j].id
  }

  /** Item ids are the primary key of the item table: unique inside a build and across builds. */
  predicate UniqueItemIds(s: State)
  {
    && (forall b :: b in s.builds ==> DistinctIds(s.builds[b].items))
    && (forall b1, b2 :: b1 in s.builds && b2 in s.builds && b1 != b2 ==>
          IdsOf(s.builds[b1].items) !! IdsOf(s.builds[b2].items))
  }

  predicate AllPositive(items: seq<Item>)
  {
    forall i :: 0 <= i < |items| ==> items[i].quantity >= 1
  }

  /** Every stored line has a quantity of at least 1. */
  predicate PositiveQuantities(s: State)
  {
    forall b :: b in s.builds ==> AllPositive(s.builds[b].items)
  }

  /** The keys in `env` are not in use yet, as the database's key generator guarantees. */
  predicate Fresh(s: State, env: Env)
  {
    && env.newBuildId !in s.builds
    && forall b :: b in s.builds ==> env.newItemId !in IdsOf(s.builds[b].items)
  }

  /** A build item with id `itemId` exists and sits in a build `user` owns. */
  predicate ItemOwnedBy(s: State, itemId: ItemId, user: UserId)
  {
    exists b :: b in s.builds && s.builds[b].owner == user && itemId in IdsOf(s.builds[b].items)
  }

  /**
    A non-empty set has a member to choose. This models nothing of the store:
    it only lets the verifier accept the `:|` choices over build ids.
   */
  lemma NonEmptyHasMember(xs: set<BuildId>)
    requires xs != {}
    ensures exists x :: x in xs
  {
    if forall x :: x !in xs {
      assert false;
    }
  }
}

=== FILE: properties.dfy ===
/**
  Properties that relate several handler calls, or a handler call to the
  invariants of the store: item ids stay a key, quantities stay positive,
  repeated additions merge, and the session pointer keeps later implicit
  additions on the same build.
 */
module BuildProperties {
  import opened Models
  import opened Lines
  import opened Listing
  import opened BuildController

  /** The store invariant every handler keeps. */
  predicate Wellformed(s: State)
  {
    UniqueItemIds(s) && PositiveQuantities(s)
  }

  /** The ids of the lines after adding: the old ids, plus the fresh one when a line was appended. */
  lemma AddLineIds(b: Build, itemsLoaded: bool, p: ProductId, newId: ItemId, now: Time)
    requires DistinctIds(b.items)
    requires newId !in IdsOf(b.items)
    ensures DistinctIds(AddLine(b, itemsLoaded, p, newId, now).items)
    ensures IdsOf(AddLine(b, itemsLoaded, p, newId, now).items) <= IdsOf(b.items) + {newId}
  {
    if itemsLoaded {
      MergeIds(b.items, p, newId);
    } else {
      var line := Merge([], p, newId);
      assert line == [Item(newId, p, 1)];
      IdsOfAppend(b.items, line);
      assert IdsOf(line) == {newId} by {
        assert line[0] in line;
      }
      DistinctIdsAppend(b.items, line[0]);
    }
  }

  /**
    Storing `nb` as build `b`, where `nb`'s ids are distinct and are `b`'s old
    ids plus ids no other build uses, keeps item ids a key.
   */
  lemma ReplaceBuildKeepsUnique(s: State, b: BuildId, nb: Build, extra: set<ItemId>)
    requires UniqueItemIds(s)
    requires DistinctIds(nb.items)
    requires IdsOf(nb.items) <= (if b in s.builds then IdsOf(s.builds[b].items) else {}) + extra
    requires forall c :: c in s.builds && c != b ==> extra !! IdsOf(s.builds[c].items)
    ensures UniqueItemIds(s.(builds := s.builds[b := nb]))
  {
    var m := s.builds[b := nb];
    forall b1, b2 | b1 in m && b2 in m && b1 != b2
      ensures IdsOf(m[b1].items) !! IdsOf(m[b2].items)
    {
      if b1 == b {
        assert IdsOf(m[b2].items) == IdsOf(s.builds[b2].items);
      } else if b2 == b {
        assert IdsOf(m[b1].items) == IdsOf(s.builds[b1].items);
      }
    }
  }

  /** The build AddToBuild writes has distinct ids, only old ids or the fresh one, and positive quantities. */
  lemma AddToBuildTargetLines(s: State, user: UserId, p: ProductId, buildId: Option<BuildId>, recent: seq<BuildId>, env: Env)
    requires RecencyOrder(s, user, recent)
    requires Fresh(s, env)
    requires Wellformed(s)
    ensures var r := AddToBuild(s, user, p, buildId, recent, env);
            var items := r.state.builds[r.target].items;
            && DistinctIds(items)
            && IdsOf(items) <= (if r.target in s.builds then IdsOf(s.builds[r.target].items) else {}) + {env.newItemId}
            && AllPositive(items)
  {
    var res := Resolve(s, user, buildId, recent, env);
    var b := res.state.builds[res.target];
    assert b.items == [] || (res.target in s.builds && b == s.builds[res.target]);
    AddLineIds(b, res.itemsLoaded, p, env.newItemId, env.now);
    var lines := AddLine(b, res.itemsLoaded, p, env.newItemId, env.now).items;
    assert res.itemsLoaded ==> lines == Merge(b.items, p, env.newItemId);
    assert !res.itemsLoaded ==> lines == b.items + [Item(env.newItemId, p, 1)];
  }

  /** AddToBuild keeps item ids a key and every quantity positive, given fresh keys. */
  lemma AddToBuildKeepsWellformed(s: State, user: UserId, p: ProductId, buildId: Option<BuildId>, recent: seq<BuildId>, env: Env)
    requires RecencyOrder(s, user, recent)
    requires Fresh(s, env)
    requires Wellformed(s)
    ensures Wellformed(AddToBuild(s, user, p, buildId, recent, env).state)
  {
    var r := AddToBuild(s, user, p, buildId, recent, env);
    var t := r.target;
    AddToBuildTargetLines(s, user, p, buildId, recent, env);
    OnlyOneBuildChanged(s.builds, r.state.builds, t);
    ReplaceBuildKeepsUnique(s, t, r.state.builds[t], {env.newItemId});
    ReplaceBuildKeepsPositive(s, t, r.state.builds[t]);
  }

  lemma OnlyOneBuildChanged(m: map<BuildId, Build>, m': map<BuildId, Build>, t: BuildId)
    requires m'.Keys == m.Keys + {t}
    requires forall id :: id in m && id != t ==> m'[id] == m[id]
    ensures m' == m[t := m'[t]]
  {
    var n := m[t := m'[t]];
    assert n.Keys == m'.Keys;
    forall id | id in m' ensures m'[id] == n[id] {
    }
  }

  lemma ReplaceBuildKeepsPositive(s: State, b: BuildId, nb: Build)
    requires PositiveQuantities(s)
    requires AllPositive(nb.items)
    ensures PositiveQuantities(s.(builds := s.builds[b := nb]))
  {
  }

  /** UpdateQuantity keeps item ids a key and every quantity positive. */
  lemma UpdateQuantityKeepsWellformed(s: State, user: UserId, itemId: ItemId, quantity: int, now: Time)
    requires Wellformed(s)
    ensures Wellformed(UpdateQuantity(s, user, itemId, quantity, now).state)
  {
    var r := UpdateQuantity(s, user, itemId, quantity, now);
    if r.status == Redirect {
      var loc := LocateItem(s, itemId).value;
      var b := loc.0;
      var i := loc.1;
      var items := s.builds[b].items;
      var nb := r.state.builds[b];
      assert nb.items == items[i := nb.items[i]];
      IdsOfUpdate(items, i, nb.items[i]);
      ReplaceBuildKeepsUnique(s, b, nb, {});
      ReplaceBuildKeepsPositive(s, b, nb);
    }
  }

  /** RemoveFromBuild keeps item ids a key and every quantity positive. */
  lemma RemoveFromBuildKeepsWellformed(s: State, user: UserId, itemId: ItemId, now: Time)
    requires Wellformed(s)
    ensures Wellformed(RemoveFromBuild(s, user, itemId, now).state)
  {
    var r := RemoveFromBuild(s, user, itemId, now);
    if r.status == Redirect {
      var loc := LocateItem(s, itemId).value;
      var b := loc.0;
      var i := loc.1;
      var items := s.builds[b].items;
      var nb := r.state.builds[b];
      IdsOfRemove(items, i);
      ReplaceBuildKeepsUnique(s, b, nb, {});
      RemoveKeepsPositive(items, i);
      ReplaceBuildKeepsPositive(s, b, nb);
    }
  }

  lemma RemoveKeepsPositive(items: seq<Item>, i: nat)
    requires i < |items|
    requires AllPositive(items)
    ensures AllPositive(items[..i] + items[i + 1..])
  {
    var rest := items[..i] + items[i + 1..];
    assert forall k :: 0 <= k < |rest| ==> rest[k] == items[if k < i then k else k + 1];
  }

  /** Adding a product twice to a build of the user's that has no line for it leaves exactly one line for it, with quantity 2. */
  lemma AddTwiceMerges(s: State, user: UserId, p: ProductId, b: BuildId,
                       recent1: seq<BuildId>, env1: Env, recent2: seq<BuildId>, env2: Env)
    requires OwnedBy(s, b, user)
    requires !HasLine(s.builds[b].items, p)
    requires RecencyOrder(s, user, recent1)
    requires env1.newBuildId !in s.builds
    requires RecencyOrder(AddToBuild(s, user, p, Some(b), recent1, env1).state, user, recent2)
    requires env2.newBuildId !in AddToBuild(s, user, p, Some(b), recent1, env1).state.builds
    ensures var s2 := AddToBuild(AddToBuild(s, user, p, Some(b), recent1, env1).state, user, p, Some(b), recent2, env2).state;
            var items := s2.builds[b].items;
            && |items| == |s.builds[b].items| + 1
            && items[|items| - 1] == Item(env1.newItemId, p, 2)
            && forall k :: 0 <= k < |items| - 1 ==> items[k].productId != p
  {
    var items0 := s.builds[b].items;
    var r1 := AddToBuild(s, user, p, Some(b), recent1, env1);
    assert Resolve(s, user, Some(b), recent1, env1).itemsLoaded;
    assert r1.state.builds[b].items == Merge(items0, p, env1.newItemId);
    var r2 := AddToBuild(r1.state, user, p, Some(b), recent2, env2);
    assert Resolve(r1.state, user, Some(b), recent2, env2).itemsLoaded;
    assert r2.state.builds[b].items == Merge(r1.state.builds[b].items, p, env2.newItemId);
    MergeTwiceNewProduct(items0, p, env1.newItemId, env2.newItemId);
    var items := r2.state.builds[b].items;
    assert items == items0 + [Item(env1.newItemId, p, 2)];
    assert forall k :: 0 <= k < |items| - 1 ==> items[k] == items0[k];
  }

  /**
    The same on the session path: with no explicit id and the session pointing
    at a build of the user's without a line for `p`, two adds of `p` leave
    exactly one line for `p`, with quantity 2.
   */
  lemma AddTwiceMergesViaSession(s: State, user: UserId, p: ProductId, b: BuildId,
                                 recent1: seq<BuildId>, env1: Env, recent2: seq<BuildId>, env2: Env)
    requires OwnedBy(s, b, user)
    requires s.active == Some(b)
    requires !HasLine(s.builds[b].items, p)
    requires RecencyOrder(s, user, recent1)
    requires env1.newBuildId !in s.builds
    requires RecencyOrder(AddToBuild(s, user, p, None, recent1, env1).state, user, recent2)
    requires env2.newBuildId !in AddToBuild(s, user, p, None, recent1, env1).state.builds
    ensures var r1 := AddToBuild(s, user, p, None, recent1, env1);
            var r2 := AddToBuild(r1.state, user, p, None, recent2, env2);
            var items := r2.state.builds[b].items;
            && r1.target == b && r2.target == b
            && r2.state.active == Some(b)
            && r2.state.builds.Keys == s.builds.Keys
            && |items| == |s.builds[b].items| + 1
            && items[|items| - 1] == Item(env1.newItemId, p, 2)
            && forall k :: 0 <= k < |items| - 1 ==> items[k].productId != p
  {
    var items0 := s.builds[b].items;
    var res1 := Resolve(s, user, None, recent1, env1);
    assert res1.target == b && res1.itemsLoaded && res1.state == s;
    var r1 := AddToBuild(s, user, p, None, recent1, env1);
    assert r1.target == b && r1.state.active == Some(b);
    assert r1.state.builds[b].items == Merge(items0, p, env1.newItemId);
    var res2 := Resolve(r1.state, user, None, recent2, env2);
    assert res2.target == b && res2.itemsLoaded && res2.state == r1.state;
    var r2 := AddToBuild(r1.state, user, p, None, recent2, env2);
    assert r2.target == b;
    assert r2.state.builds[b].items == Merge(r1.state.builds[b].items, p, env2.newItemId);
    MergeTwiceNewProduct(items0, p, env1.newItemId, env2.newItemId);
    var items := r2.state.builds[b].items;
    assert items == items0 + [Item(env1.newItemId, p, 2)];
    assert forall k :: 0 <= k < |items| - 1 ==> items[k] == items0[k];
  }

  /**
    Once an implicit AddToBuild has run, the session points at the build it
    used, so the next implicit AddToBuild by the same user goes to that same
    build, this time with its items loaded, and moves no pointer.
   */
  lemma SessionKeepsTarget(s: State, user: UserId, p: ProductId, p': ProductId,
                           recent1: seq<BuildId>, env1: Env, recent2: seq<BuildId>, env2: Env)
    requires RecencyOrder(s, user, recent1)
    requires env1.newBuildId !in s.builds
    requires RecencyOrder(AddToBuild(s, user, p, None, recent1, env1).state, user, recent2)
    requires env2.newBuildId !in AddToBuild(s, user, p, None, recent1, env1).state.builds
    ensures var r1 := AddToBuild(s, user, p, None, recent1, env1);
            var r2 := AddToBuild(r1.state, user, p', None, recent2, env2);
            && r1.state.active == Some(r1.target)
            && r2.target == r1.target
            && r2.state.active == r1.state.active
            && r2.state.builds.Keys == r1.state.builds.Keys
            && Resolve(r1.state, user, None, recent2, env2).itemsLoaded
  {
    var res1 := Resolve(s, user, None, recent1, env1);
    assert res1.state.active == Some(res1.target) by {
      if s.active.Some? && OwnedBy(s, s.active.value, user) {
        assert res1.target == s.active.value;
      }
    }
    var r1 := AddToBuild(s, user, p, None, recent1, env1);
    assert r1.state.active == res1.state.active;
    var res2 := Resolve(r1.state, user, None, recent2, env2);
    assert OwnedBy(r1.state, r1.target, user);
  }

  /** A user with no build and no session pointer gets a new build holding exactly the added product, and it becomes the active build. */
  lemma FirstAddCreatesBuild(s: State, user: UserId, p: ProductId, buildId: Option<BuildId>, recent: seq<BuildId>, env: Env)
    requires OwnedIds(s, user) == {}
    requires s.active.None? || s.active.value !in s.builds || s.builds[s.active.value].owner != user
    requires RecencyOrder(s, user, recent)
    requires env.newBuildId !in s.builds
    ensures var r := AddToBuild(s, user, p, buildId, recent, env);
            && r.target == env.newBuildId
            && r.state.active == Some(env.newBuildId)
            && r.state.builds[r.target] == Build(user, env.defaultName, env.now, Some(env.now), [Item(env.newItemId, p, 1)])
  {
    RecencyEmptyIffNoBuild(s, user, recent);
  }

  /** User 1 owns build 10, which already holds a line for product 7; the session has no pointer. */
  function ExampleState(): State
  {
    State(map[10 := Build(1, "Build Oct 10", 0, None, [Item(100, 7, 1)])], None)
  }

  function ExampleEnv(): Env
  {
    Env(5, 11, 101, "Build Oct 11")
  }

  /**
    The duplicate-line defect on one concrete input: adding product 7 again
    through the most-recent-build lookup appends a second line for it instead
    of raising the first line's quantity.
   */
  lemma DuplicateLineWhenNotLoaded()
    ensures RecencyOrder(ExampleState(), 1, [10])
    ensures AddToBuild(ExampleState(), 1, 7, None, [10], ExampleEnv()).state.builds[10].items
            == [Item(100, 7, 1), Item(101, 7, 1)]
    ensures !OneLinePerProduct(AddToBuild(ExampleState(), 1, 7, None, [10], ExampleEnv()).state.builds[10].items)
  {
    var s := ExampleState();
    var res := Resolve(s, 1, None, [10], ExampleEnv());
    assert res == Resolution(s.(active := Some(10)), 10, false);
    var items := AddToBuild(s, 1, 7, None, [10], ExampleEnv()).state.builds[10].items;
    assert items == [Item(100, 7, 1), Item(101, 7, 1)];
    assert items[0].productId == items[1].productId;
  }

  /**
    Two requests that leave a negative quantity under 32-bit arithmetic.
    UpdateQuantity clamps only from below, so it stores Int32Max in line 100
    of the example build, and the state stays well formed. Adding product 7
    again through that build's id loads its items, and `Quantity++` wraps the
    line to Int32Min. The unbounded `Merge` the model uses keeps it positive.
   */
  lemma QuantityWrapsAfterTwoRequests()
    ensures var r := UpdateQuantity(ExampleState(), 1, 100, Int32Max, 5);
            && r.status == Redirect
            && r.state.builds[10].items == [Item(100, 7, Int32Max)]
            && Wellformed(r.state)
            && MergeInt32(r.state.builds[10].items, 7, 101) == [Item(100, 7, Int32Min)]
            && !AllPositive(MergeInt32(r.state.builds[10].items, 7, 101))
            && Merge(r.state.builds[10].items, 7, 101) == [Item(100, 7, Int32Max + 1)]
            && RecencyOrder(r.state, 1, [10])
            && Resolve(r.state, 1, Some(10), [10], ExampleEnv()).itemsLoaded
            && Resolve(r.state, 1, Some(10), [10], ExampleEnv()).target == 10
  {
    var s := ExampleState();
    assert ItemOwnedBy(s, 100, 1) by {
      assert Item(100, 7, 1) in s.builds[10].items;
    }
    assert LocateItem(s, 100).Some?;
    assert LocateItem(s, 100).value == (10, 0) by {
      assert |s.builds[10].items| == 1;
    }
    var r := UpdateQuantity(s, 1, 100, Int32Max, 5);
    var items := r.state.builds[10].items;
    assert items == [Item(100, 7, Int32Max)];
    assert r.state.builds == map[10 := r.state.builds[10]];
    assert Wellformed(r.state) by {
      assert IdsOf(items) == {100} by {
        assert items[0] in items;
      }
    }
    assert FindLine(items, 7) == Some(0);
  }

  /** On the same input, the corrected AddToBuild raises the existing line to quantity 2. */
  lemma EagerMergesOnExample()
    ensures AddToBuildEager(ExampleState(), 1, 7, None, [10], ExampleEnv()).state.builds[10].items
            == [Item(100, 7, 2)]
  {
    var s := ExampleState();
    var res := Resolve(s, 1, None, [10], ExampleEnv());
    assert res == Resolution(s.(active := Some(10)), 10, false);
    assert FindLine([Item(100, 7, 1)], 7) == Some(0);
  }

  /** One line per product in every build. */
  predicate OneLinePerProductEverywhere(s: State)
  {
    forall b :: b in s.builds ==> OneLinePerProduct(s.builds[b].items)
  }

  /** With the items always loaded, every build keeps at most one line per product. */
  lemma EagerKeepsOneLinePerProduct(s: State, user: UserId, p: ProductId, buildId: Option<BuildId>, recent: seq<BuildId>, env: Env)
    requires RecencyOrder(s, user, recent)
    requires env.newBuildId !in s.builds
    requires OneLinePerProductEverywhere(s)
    ensures OneLinePerProductEverywhere(AddToBuildEager(s, user, p, buildId, recent, env).state)
  {
    var r := AddToBuildEager(s, user, p, buildId, recent, env);
    forall b | b in r.state.builds ensures OneLinePerProduct(r.state.builds[b].items) {
      if b != r.target {
        assert r.state.builds[b] == s.builds[b];
      }
    }
  }

  lemma ReplaceBuildKeepsOneLine(s: State, b: BuildId, nb: Build)
    requires OneLinePerProductEverywhere(s)
    requires OneLinePerProduct(nb.items)
    ensures OneLinePerProductEverywhere(s.(builds := s.builds[b := nb]))
  {
  }

  /** Changing a quantity never creates a second line for a product. */
  lemma UpdateQuantityKeepsOneLinePerProduct(s: State, user: UserId, itemId: ItemId, quantity: int, now: Time)
    requires UniqueItemIds(s)
    requires OneLinePerProductEverywhere(s)
    ensures OneLinePerProductEverywhere(UpdateQuantity(s, user, itemId, quantity, now).state)
  {
    var u := UpdateQuantity(s, user, itemId, quantity, now);
    if u.status == Redirect {
      var loc := LocateItem(s, itemId).value;
      var b := loc.0;
      var items := s.builds[b].items;
      var nb := u.state.builds[b];
      assert forall k :: 0 <= k < |items| ==> nb.items[k].productId == items[k].productId;
      ReplaceBuildKeepsOneLine(s, b, nb);
    }
  }

  lemma RemoveKeepsOneLinePerProduct(items: seq<Item>, i: nat)
    requires i < |items|
    requires OneLinePerProduct(items)
    ensures OneLinePerProduct(items[..i] + items[i + 1..])
  {
    var rest := items[..i] + items[i + 1..];
    assert forall k :: 0 <= k < |rest| ==> rest[k] == items[if k < i then k else k + 1];
  }

  /** Removing a line never creates a second line for a product. */
  lemma RemoveFromBuildKeepsOneLinePerProduct(s: State, user: UserId, itemId: ItemId, now: Time)
    requires UniqueItemIds(s)
    requires OneLinePerProductEverywhere(s)
    ensures OneLinePerProductEverywhere(RemoveFromBuild(s, user, itemId, now).state)
  {
    var d := RemoveFromBuild(s, user, itemId, now);
    if d.status == Redirect {
      var loc := LocateItem(s, itemId).value;
      var b := loc.0;
      var i := loc.1;
      var items := s.builds[b].items;
      var rest := d.state.builds[b].items;
      assert rest == items[..i] + items[i + 1..];
      RemoveKeepsOneLinePerProduct(items, i);
      ReplaceBuildKeepsOneLine(s, b, d.state.builds[b]);
    }
  }

  /** Create keeps item ids a key and every quantity positive. */
  lemma CreateKeepsWellformed(s: State, user: UserId, buildName: Option<string>, env: Env)
    requires Wellformed(s)
    requires env.newBuildId !in s.builds
    ensures Wellformed(Create(s, user, buildName, env))
  {
    var c := Create(s, user, buildName, env);
    OnlyOneBuildChanged(s.builds, c.builds, env.newBuildId);
    ReplaceBuildKeepsUnique(s, env.newBuildId, c.builds[env.newBuildId], {});
  }

  /** Delete keeps item ids a key and every quantity positive. */
  lemma DeleteKeepsWellformed(s: State, user: UserId, id: BuildId)
    requires Wellformed(s)
    ensures Wellformed(Delete(s, user, id).state)
  {
  }

  /** SetActiveBuild changes no build, so the store stays well formed. */
  lemma SetActiveKeepsWellformed(s: State, user: UserId, id: BuildId)
    requires Wellformed(s)
    ensures Wellformed(SetActiveBuild(s, user, id))
  {
  }

  /** Of two builds of the user, the more recently touched one is where an implicit first addition goes. */
  lemma MostRecentBuildWins(s: State, user: UserId, p: ProductId, older: BuildId, newer: BuildId, recent: seq<BuildId>, env: Env)
    requires OwnedIds(s, user) == {older, newer}
    requires older in s.builds && newer in s.builds
    requires LastTouched(s.builds[older]) < LastTouched(s.builds[newer])
    requires s.active.None?
    requires RecencyOrder(s, user, recent)
    requires env.newBuildId !in s.builds
    ensures AddToBuild(s, user, p, None, recent, env).target == newer
    ensures AddToBuild(s, user, p, None, recent, env).state.active == Some(newer)
  {
    var res := Resolve(s, user, None, recent, env);
    assert OwnedBy(s, newer, user) by {
      assert newer in OwnedIds(s, user);
    }
    assert res.target in OwnedIds(s, user);
  }

  /** After SetActiveBuild picks one of the user's builds, an implicit AddToBuild goes to it, with its items loaded, and creates nothing. */
  lemma ActiveBuildReceivesAdds(s: State, user: UserId, id: BuildId, p: ProductId, recent: seq<BuildId>, env: Env)
    requires OwnedBy(s, id, user)
    requires RecencyOrder(SetActiveBuild(s, user, id), user, recent)
    requires env.newBuildId !in s.builds
    ensures AddToBuild(SetActiveBuild(s, user, id), user, p, None, recent, env).target == id
    ensures AddToBuild(SetActiveBuild(s, user, id), user, p, None, recent, env).state.builds.Keys == s.builds.Keys
    ensures Resolve(SetActiveBuild(s, user, id), user, None, recent, env).itemsLoaded
  {
    var a := SetActiveBuild(s, user, id);
    assert a.active == Some(id) && a.builds == s.builds;
    var res := Resolve(a, user, None, recent, env);
    assert res.target == id;
  }

  /**
    Deleting the active build leaves the session pointer dangling, so the next
    implicit AddToBuild creates a new build even when the user still owns
    others; it does not fall back to the most recent one.
   */
  lemma DeletedActiveBuildLeadsToNewBuild(s: State, user: UserId, id: BuildId, p: ProductId, recent: seq<BuildId>, env: Env)
    requires OwnedBy(s, id, user)
    requires s.active == Some(id)
    requires RecencyOrder(Delete(s, user, id).state, user, recent)
    requires env.newBuildId !in s.builds
    ensures Delete(s, user, id).status == Redirect
    ensures Details(Delete(s, user, id).state, user, id).None?
    ensures AddToBuild(Delete(s, user, id).state, user, p, None, recent, env).target == env.newBuildId
    ensures AddToBuild(Delete(s, user, id).state, user, p, None, recent, env).state.active == Some(env.newBuildId)
  {
    var d := Delete(s, user, id).state;
    assert d.active == Some(id) && id !in d.builds;
    var res := Resolve(d, user, None, recent, env);
    assert res.target == env.newBuildId;
  }
}
